=== FILE: README.md ===
# BusStop configurator: the text protocol of `app.js`

`app.js` is the browser page that configures a bus-arrival display over a
serial link. Beneath its DOM and Web Serial plumbing lies a small text
protocol. This project models that protocol in Dafny:

- **Time conversion.** `formatTime` turns a minute count since midnight into
  `HH:MM`. `parseTime` turns `H:M` back into minutes. (`clock.dfy`)
- **Preference report.** The device answers `GET_PREFS` with `KEY=value`
  lines. `applyPreferences` trims the text and splits it into lines. It
  splits each line on `=` and keeps a pair when the key and value pieces are
  non-empty, storing it trimmed (a later line overwrites an earlier one).
  Five of the keys are then copied into the form: `START` and `END` go
  through `formatTime`. (`preferences.dfy`)
- **Read loop.** Each decoded chunk is appended to `serialBuffer`. As soon as
  the buffer contains the text `LEADTIME=`, the whole buffer is applied as a
  report and emptied. This step is the `Feed` method of a `Session` class
  that holds the buffer and the form fields. (`serial.dfy`)
- **Submit.** The handler checks the five required fields, each after
  trimming. Then it sends seven `SET_...` commands in a fixed order. Each
  command is written followed by a line feed. (`submit.dfy`)

The JavaScript string primitives these use (`trim`, `split` on one
character, `includes`, `padStart`, `String(n)` and `Number(s)` on digit
strings) are written over `seq<char>` in `text.dfy`. `wrappers.dfy` holds
the `Option` type.

The model follows `app.js` as written, including where it departs from a
line-reassembling design of the protocol, in which chunks are reassembled
into complete lines and the key set and sentinel are configurable:

- a line is split on every `=` and only the first two pieces are used, so
  `A=b=c` stores `b`;
- the emptiness test on key and value comes before trimming, so ` =5`
  stores `5` under the empty key;
- the batch trigger is the substring `LEADTIME=` anywhere in the buffer, not
  a completed sentinel line;
- there is no line reassembler, and a trailing partial line is applied with
  the rest of the buffer;
- the key set is the single-service one (`BUSSTOP`, `SERVICE`, `START`,
  `END`, `LEADTIME`).

## Model

| member | source | states |
|---|---|---|
| Text.Trim | app.js:86-92 | `trim()` leaves a text no longer than the input, with no whitespace at either end |
| Text.TrimShape | app.js:86-92 | `trim()` removes leading and trailing whitespace and nothing else: the result is the input with a run of whitespace cut from the front and one from the back (with `Text.Trim`'s contract, this fixes the result) |
| Text.TrimEmpty | app.js:95 | a field counts as empty after `trim()` exactly when every character of it is whitespace |
| Text.TrimIdempotent | app.js:17 | trimming an already trimmed value changes nothing |
| Text.TrimKeepsOut | app.js:86-92 | trimming never brings in a character that was not in the input |
| Text.FirstIndex | app.js:16 | the index found is the first occurrence of the separator, or the length when there is none |
| Text.Split | app.js:16 | `split(c)` gives at least one piece, and no piece holds `c` |
| Text.JoinSplit | app.js:12 | joining the pieces of `split` with the separator gives back the text, so no character is lost |
| Text.SplitJoin | app.js:79 | splitting pieces without the separator, once joined, gives back exactly those pieces |
| Text.SplitAppend | app.js:12 | splitting at a separator splits the text before it and the text after it independently |
| Text.Contains | app.js:59 | `includes(p)` is true exactly when `p` occurs at some index |
| Text.DecimalValue | app.js:79 | `Number(s)` for a string of decimal digits, the empty string reading as 0 (definition; `Text.Decimal` and `Text.ZeroPadValue` are its partners) |
| Text.Decimal | app.js:6-7 | `String(n)` is a numeral without leading zero that reads back as `n` |
| Text.PadStart | app.js:6-7 | `padStart(width, fill)` is `width` long when the input was shorter, otherwise as long as the input |
| Text.PadStartShape | app.js:6-7 | the padded text is the fill character repeated as often as needed, followed by the input |
| Text.ZeroPadValue | app.js:6-7 | padding a numeral with zeros keeps it a numeral of the same value |
| Clock.Padded | app.js:6-7 | `String(n).padStart(2, '0')` is at least two digits, reads as `n`, and is exactly two digits below 100 |
| Clock.FormatTime | app.js:5-9 | `formatTime(m)`: digits around one ':' three places from the end; the hour part reads as m div 60, the last two digits as m mod 60; five characters for m below 6000 |
| Clock.ParseTime | app.js:78-81 | `parseTime(s)`: 60 times the value of the first ':'-piece plus the value of the second, anything after a second ':' ignored (definition; partner `Clock.RoundTrip`) |
| Clock.ParseJoined | app.js:78-81 | two numerals joined by ':' are read by `parseTime` as hours and minutes |
| Clock.RoundTrip | app.js:78-81 | `parseTime(formatTime(m)) == m` for every natural `m` |
| Clock.FormattedIsTrimmed | app.js:88-89 | a formatted time is unchanged by the `trim()` of the submit handler |
| Preferences.LinePair | app.js:16-17 | the pair of one line: split on every '=', kept when the first two pieces are non-empty before trimming, stored trimmed (definition; partner `Preferences.LinePairShape`) |
| Preferences.LinePairShape | app.js:16-17 | a line yields a pair exactly when its first '=' is neither its first character nor followed by another '=' or the line end; the pair is the trimmed text before the first '=' and the trimmed text up to the second '=' |
| Preferences.Lines | app.js:12 | `prefText.trim().split('\n')`: the lines of the trimmed report (definition; partners `Text.JoinSplit`, `Text.TrimShape` and `Serial.LinesEndingInSentinel`) |
| Preferences.Collect | app.js:13-18 | the dictionary the `forEach` builds from the lines' pairs, a later line overwriting an earlier one (reference definition; partners `Preferences.CollectDomain`, `Preferences.CollectLastWins` and `Preferences.ParsePreferences`) |
| Preferences.BlankKeyKept | app.js:16-17 | a key piece of spaces passes the untrimmed test and is stored as the empty key |
| Preferences.CollectDomain | app.js:15-18 | a key is in the dictionary exactly when some line defines it |
| Preferences.CollectLastWins | app.js:15-18 | the stored value is the one from the last line defining the key |
| Preferences.MalformedLineIgnored | app.js:16-17 | a line without a pair, wherever it stands, leaves the dictionary as the other lines make it |
| Preferences.CollectValuesTrimmed | app.js:17 | every stored value is already trimmed |
| Preferences.ParsePreferences | app.js:12-18 | the `forEach` loop builds exactly the dictionary of the trimmed text's lines, last line winning |
| Preferences.Has | app.js:20-24 | the truthiness of `prefs.KEY`: the key is present with a non-empty value (definition; partners `Preferences.ApplyPreferences` and `Preferences.ApplyIgnoresOtherKeys`) |
| Preferences.ApplyPreferences | app.js:20-24 | each of the five keys present with a non-empty value sets its field (START and END through `formatTime`); a key that is absent or empty leaves its field, the WiFi fields never change, and no recognised key means no change |
| Preferences.AppliedTimesParse | app.js:22-23 | the time fields set from the report read back through `parseTime` as the minute counts sent |
| Preferences.ApplyIgnoresOtherKeys | app.js:20-24 | adding any key outside the five (WIFI_SSID and WIFI_PASSWORD among them) leaves the resulting form unchanged |
| Preferences.ApplyIdempotent | app.js:20-24 | applying a dictionary twice gives the same form as applying it once |
| Preferences.ApplyReport | app.js:11-25 | `applyPreferences(prefText)` as a whole: the form after applying the dictionary of the trimmed text's lines (definition; partners `Serial.SentinelCutOff` and `Submit.ReportThenSubmit`) |
| Serial.Session.constructor | app.js:3 | a connection starts with an empty buffer and the current form |
| Serial.Session.Feed | app.js:56-62 | if the old buffer plus the chunk contains `LEADTIME=`, the form becomes the report of exactly that text and the buffer empties; otherwise the buffer is that text and the form is unchanged; between chunks the buffer never contains `LEADTIME=` |
| Serial.SentinelLineHasNoPair | app.js:59 | the bare `LEADTIME=` line has an empty value piece and yields no pair |
| Serial.SentinelFound | app.js:59 | a buffer ending in a line `LEADTIME=` triggers the report |
| Serial.EarlierLines | app.js:12 | the report lines before the cut-off sentinel line (definition; partner `Serial.LinesEndingInSentinel`) |
| Serial.LinesEndingInSentinel | app.js:12 | for every buffer, leading whitespace included, `trim().split('\n')` of a buffer ending in the line `LEADTIME=` is the earlier lines followed by that line; when the buffer does not start with whitespace, the earlier lines are the buffer's own lines |
| Serial.SentinelLineDropped | app.js:12-18 | for every buffer ending in the line `LEADTIME=`, that cut-off last line adds nothing to the dictionary of the earlier lines |
| Serial.SentinelCutOff | app.js:59-60 | a chunk ending right after `LEADTIME=`, whatever the buffer starts with, applies the report as if that line were absent: the cut-off line contributes nothing, and the lead time comes only from earlier lines |
| Serial.CutOffKeepsLeadTime | app.js:59-60 | after such a cut-off, when no earlier line defines LEADTIME, the lead-time field keeps its old value |
| Serial.CutOffEarlierLeadTime | app.js:59-60 | after such a cut-off, a LEADTIME defined on an earlier line (as `LEADTIME =5`, which lacks the trigger text) still sets the field from its last such line, when that line's value is non-empty (a blank value is stored but fails the truthiness test, so the field keeps its old value) |
| Submit.CommandReadBack | app.js:100-106 | a command `NAME=arg` reads back as that name and that argument, whatever the argument holds |
| Submit.Command | app.js:100-106 | the template literal `NAME=${arg}` (definition; partner `Submit.CommandReadBack`) |
| Submit.Arguments | app.js:100-106 | seven arguments; the start and end arguments are numerals whose value is `parseTime` of the trimmed time fields |
| Submit.Incomplete | app.js:95 | the blank check on the five required fields after trimming (definition; partners `Submit.SubmitCommands` and `Text.TrimEmpty`) |
| Submit.Commands | app.js:100-106 | the i-th command holds an '=', its name (the text before the first '=') is the i-th command name and its argument (the text after it) is the i-th argument, which fixes the command text |
| Submit.CommandArguments | app.js:100-106 | the commands of a submit carry the seven arguments, index by index |
| Submit.SubmitCommands | app.js:95-106 | nothing is sent exactly when one of busStop, serviceNo, startTime, endTime, leadTime is blank after trimming (WiFi fields not checked; the time text of such a form is never looked at); otherwise seven commands, each holding an '=', named SET_BUSSTOP, SET_SERVICE, SET_START, SET_END, SET_LEADTIME, SET_WIFI_SSID, SET_WIFI_PASSWORD in that order |
| Submit.SubmitArguments | app.js:100-106 | each command carries its trimmed field; SET_START and SET_END carry `parseTime` of the trimmed time fields |
| Submit.Frame | app.js:44 | `command + '\n'`, what `sendCommand` writes (definition; partner `Submit.WireSplits`) |
| Submit.Wire | app.js:42-45 | everything a run of `sendCommand` calls writes, in call order (definition; partner `Submit.WireSplits`) |
| Submit.WireSplits | app.js:44 | when no command holds a line feed, commands written each followed by '\n' split back at line feeds into the same commands plus an empty last piece |
| Submit.ArgumentsWithoutLineFeed | app.js:86-92 | no argument holds a line feed when no field does |
| Submit.SubmitFraming | app.js:42-45 | when no field holds a line feed, the written submit splits into exactly the seven commands |
| Submit.ApplyThenSubmit | app.js:85-107 | submitting right after the five fields were set from a dictionary of trimmed values sends those values back, START and END as the same minute counts |
| Submit.ReportThenSubmit | app.js:85-107 | submitting right after a report that set all five fields sends the device's own values back |

## Left out

- Web Serial and the streams (`requestPort`, `open`, `TextDecoderStream`, `pipeTo`, `reader.read`, `writer.write`, `TextEncoder`, app.js:27-50 and 54-55, 65-69) are asynchronous foreign I/O. Chunks arrive as already decoded text, and writing is modelled as the text `Wire` produces.
- The `while (true)` read loop itself, its `done` exit and its error handling are not modelled: only the per-chunk step is (`Feed`).
- Sending `GET_PREFS` on connect (app.js:36) is not modelled. The report is whatever text the chunks carry.
- DOM access, `alert` and `log` (app.js:72-76, 83, 96) are UI side effects. The form is the `Fields` record, and an alert is the `None` answer of `SubmitCommands`.
- The geolocation placeholder (app.js:109-124) is unimplemented in the source and uses floating point.
- The order in which the asynchronous `sendCommand` writes complete is not modelled. The commands are taken as written in call order.
- Preferences.ApplyPreferences: requires the START and END values to be decimal digit strings. `Number` on other text (signs, exponents, hex, text giving `NaN`) is not modelled.
- Serial.Session.Feed: requires that a text which triggers the report has digit-string START and END values, for the same reason.
- Submit.SubmitCommands: when all five required fields are filled in, requires the two time fields to read as two ':'-separated digit strings. This is an assumption about what the time fields hold; app.js does not say what kind of input they are. Other text is not modelled: text `Number` cannot read, or a missing ':', gives `NaN` in the source, and spaced, signed, fractional, hex or exponent pieces (`"6: 30"`, `"-1:30"`, `"1e1:0"`) give numbers the model does not compute. Nor is the precision that `Number` and the template string lose on digit strings above 2^53, or their exponent form from 1e21 on: `ParseTime`, `DecimalValue` and `Decimal` compute exactly. A form that fails the blank check is not restricted, since the source alerts before calling `parseTime`.
- Clock.FormatTime: takes a natural minute count. Negative or fractional minutes (`Math.floor` on a negative division) are not modelled. Neither is the exponent form that `String` produces for numbers of 1e21 and above, nor the loss of precision above 2^53.
- Text.Trim: removes only ASCII whitespace (space, tab, line feed, carriage return, vertical tab, form feed). The Unicode spaces that JavaScript's `trim` also removes are not modelled.
- The dictionary `prefs` is a plain JavaScript object (app.js:13), so an assignment to the key `__proto__` is not stored as an entry, while the model's `map` stores it like any other key (`Preferences.CollectDomain` counts it). No field of the form reads that key, so the form is the same.
- The dual-service key set, a configurable sentinel and a line reassembler belong to a line-reassembling design of the protocol (chunks reassembled into complete lines, a configurable key set and sentinel, keys for two services) but not to `app.js`, so they are not modelled.

=== FILE: clock.dfy ===
/** The conversion between a minute count since midnight and the `HH:MM` text
    the time fields of the form hold (app.js `formatTime` and `parseTime`). */
module Clock {
  import opened Text

  /** `formatTime(minutes)`: the hour count and the minute within the hour,
      each as a decimal numeral zero-padded to at least two digits, joined by
      ':'. The hour part is never cut to two digits, so counts of 6000 minutes
      or more give a longer hour part. */
  function FormatTime(minutes: nat): (r: string)
    ensures |r| >= 5 && r[|r| - 3] == ':'
    ensures forall k :: 0 <= k < |r| && k != |r| - 3 ==> IsDigit(r[k])
    ensures IsDigits(r[..|r| - 3]) && DecimalValue(r[..|r| - 3]) == minutes / 60
    ensures IsDigits(r[|r| - 2..]) && DecimalValue(r[|r| - 2..]) == minutes % 60
    ensures minutes < 6000 ==> |r| == 5
  {
    var hours, mins := Padded(minutes / 60), Padded(minutes % 60);
    JoinedNumerals(hours, mins);
    hours + [':'] + mins
  }

  /** The parts of two numerals joined by ':' are found again around the
      third character from the end. */
  lemma JoinedNumerals(hours: string, mins: string)
    requires IsDigits(hours) && IsDigits(mins) && |mins| == 2
    ensures var r := hours + [':'] + mins;
      && r[|r| - 3] == ':' && r[..|r| - 3] == hours && r[|r| - 2..] == mins
      && forall k :: 0 <= k < |r| && k != |r| - 3 ==> IsDigit(r[k])
  {
    var r := hours + [':'] + mins;
    assert r[..|r| - 3] == hours && r[|r| - 2..] == mins;
    forall k | 0 <= k < |r| && k != |r| - 3 ensures IsDigit(r[k]) {
      if k < |hours| { assert r[k] == hours[k]; } else { assert r[k] == mins[k - |hours| - 1]; }
    }
  }

  /** A number as a decimal numeral zero-padded to at least two digits. */
  function Padded(n: nat): (r: string)
    ensures |r| >= 2 && IsDigits(r) && DecimalValue(r) == n
    ensures n < 100 ==> |r| == 2
  {
    ZeroPadValue(Decimal(n), 2);
    assert n < 100 ==> |Decimal(n)| <= 2 by {
      if n < 100 && |Decimal(n)| > 2 { NumeralBound(Decimal(n)); }
    }
    PadStart(Decimal(n), 2, '0')
  }

  /** A numeral of three or more digits with no leading zero is at least 100. */
  lemma {:induction false} NumeralBound(s: string)
    requires |s| >= 3 && IsDigits(s) && s[0] != '0'
    ensures DecimalValue(s) >= 100
    decreases |s|
  {
    var init := s[..|s| - 1];
    if |s| == 3 {
      assert init[..1] == [s[0]];
      assert DecimalValue(init) >= 10 by {
        assert DecimalValue(init[..1]) == DigitValue(s[0]);
      }
    } else {
      NumeralBound(init);
    }
  }

  /** `timeStr.split(':')` yields at least two pieces and the first two are
      decimal numerals (possibly empty, which `Number` reads as 0); anything
      after a second ':' is ignored, as in the source. */
  predicate IsTimeText(s: string) {
    var parts := Split(s, ':');
    |parts| >= 2 && IsDigits(parts[0]) && IsDigits(parts[1])
  }

  /** `parseTime(timeStr)`: hours times 60 plus minutes. */
  function ParseTime(s: string): nat
    requires IsTimeText(s)
  {
    var parts := Split(s, ':');
    DecimalValue(parts[0]) * 60 + DecimalValue(parts[1])
  }

  /** Two numerals joined by ':' parse as hours and minutes. */
  lemma ParseJoined(hours: string, mins: string)
    requires IsDigits(hours) && IsDigits(mins)
    ensures IsTimeText(hours + [':'] + mins)
    ensures ParseTime(hours + [':'] + mins) == DecimalValue(hours) * 60 + DecimalValue(mins)
  {
    assert Join([hours, mins], ':') == hours + [':'] + mins;
    assert ':' !in hours && ':' !in mins by { assert !IsDigit(':'); }
    SplitJoin([hours, mins], ':');
  }

  /** Formatting a minute count and parsing it back gives the same count. */
  lemma RoundTrip(minutes: nat)
    ensures IsTimeText(FormatTime(minutes))
    ensures ParseTime(FormatTime(minutes)) == minutes
  {
    ParseJoined(Padded(minutes / 60), Padded(minutes % 60));
  }

  /** A formatted time has no whitespace at either end, so `trim` keeps it. */
  lemma FormattedIsTrimmed(minutes: nat)
    ensures Trim(FormatTime(minutes)) == FormatTime(minutes)
  {
    var r := FormatTime(minutes);
    assert IsDigit(r[0]) && IsDigit(r[|r| - 1]);
    TrimUntouched(r);
  }
}

=== FILE: preferences.dfy ===
/** The preference report the device sends after `GET_PREFS`: one `KEY=value`
    line per preference. `applyPreferences` (app.js) collects the lines into a
    dictionary and copies five of its entries into the form. */
module Preferences {
  import opened Wrappers
  import opened Text
  import opened Clock

  /** The form fields the configurator reads and writes. */
  datatype Fields = Fields(
    busStop: string,
    serviceNo: string,
    startTime: string,
    endTime: string,
    leadTime: string,
    wifiSSID: string,
    wifiPassword: string)

  /** The keys whose values are copied into the form. */
  const FieldKeys: set<string> := {"BUSSTOP", "SERVICE", "START", "END", "LEADTIME"}

  /** `const [key, value] = line.split('=')`, kept when the key piece and the
      value piece are both non-empty before trimming, and stored trimmed. */
  function LinePair(line: string): Option<(string, string)> {
    var pieces := Split(line, '=');
    if |pieces| >= 2 && pieces[0] != "" && pieces[1] != "" then
      Some((Trim(pieces[0]), Trim(pieces[1])))
    else
      None
  }

  /** The first piece of a split is the text before the first separator. */
  lemma SplitHead(s: string, c: char)
    ensures Split(s, c)[0] == s[..FirstIndex(s, c)]
  {
  }

  /** Where a line's pair comes from, character by character: a line yields a
      pair exactly when it has an '=' that is neither its first character nor
      followed by another '=' or the end of the line; the key is the trimmed
      text before the first '=', and the value is the trimmed text between the
      first '=' and the next one (or the end of the line), so anything after a
      second '=' is lost. */
  lemma LinePairShape(line: string)
    ensures var i := FirstIndex(line, '=');
      LinePair(line).Some? <==> 0 < i && i + 1 < |line| && line[i + 1] != '='
    ensures LinePair(line).Some? ==>
      var i := FirstIndex(line, '=');
      var rest := line[i + 1..];
      LinePair(line).value == (Trim(line[..i]), Trim(rest[..FirstIndex(rest, '=')]))
  {
    var i := FirstIndex(line, '=');
    SplitHead(line, '=');
    if i < |line| {
      var rest := line[i + 1..];
      assert Split(line, '=') == [line[..i]] + Split(rest, '=');
      SplitHead(rest, '=');
      assert FirstIndex(rest, '=') == 0 <==> rest == [] || rest[0] == '=';
    }
  }

  /** The emptiness test comes before trimming: a key piece of spaces passes
      it, and the pair is stored under the empty key. */
  lemma BlankKeyKept(key: string, value: string)
    requires key != [] && forall k :: 0 <= k < |key| ==> IsSpace(key[k])
    requires value != [] && '=' !in value
    ensures LinePair(key + "=" + value) == Some(([], Trim(value)))
  {
    assert '=' !in key by { assert !IsSpace('='); }
    assert Join([key, value], '=') == key + "=" + value;
    SplitJoin([key, value], '=');
    TrimEmpty(key);
  }

  /** The line yields a pair whose trimmed key is `key`. */
  predicate Defines(line: string, key: string) {
    LinePair(line).Some? && LinePair(line).value.0 == key
  }

  /** `prefText.trim().split('\n')`. */
  function Lines(text: string): seq<string> {
    Split(Trim(text), '\n')
  }

  /** The pair of each line, in order. */
  function Pairs(lines: seq<string>): (ps: seq<Option<(string, string)>>)
    ensures |ps| == |lines|
    ensures forall i :: 0 <= i < |lines| ==> ps[i] == LinePair(lines[i])
  {
    seq(|lines|, i requires 0 <= i < |lines| => LinePair(lines[i]))
  }

  /** The dictionary built by storing the pairs in order, a later pair
      overwriting an earlier one with the same key. */
  function Store(ps: seq<Option<(string, string)>>): map<string, string> {
    if ps == [] then
      map[]
    else
      var prefs := Store(ps[..|ps| - 1]);
      match ps[|ps| - 1]
      case Some((key, value)) => prefs[key := value]
      case None => prefs
  }

  /** The dictionary the `forEach` over the lines builds. */
  function Collect(lines: seq<string>): map<string, string> {
    Store(Pairs(lines))
  }

  predicate HasKey(p: Option<(string, string)>, key: string) {
    p.Some? && p.value.0 == key
  }

  lemma {:induction false} StoreDomain(ps: seq<Option<(string, string)>>, key: string)
    ensures key in Store(ps) <==> exists i :: 0 <= i < |ps| && HasKey(ps[i], key)
  {
    if ps != [] {
      var init := ps[..|ps| - 1];
      StoreDomain(init, key);
      if key in Store(init) {
        var i :| 0 <= i < |init| && HasKey(init[i], key);
        assert ps[i] == init[i];
      }
      if i :| 0 <= i < |ps| && HasKey(ps[i], key) {
        if i < |init| {
          assert init[i] == ps[i];
        }
      }
    }
  }

  lemma {:induction false} StoreLastWins(ps: seq<Option<(string, string)>>, i: nat, key: string)
    requires i < |ps| && HasKey(ps[i], key)
    requires forall j :: i < j < |ps| ==> !HasKey(ps[j], key)
    ensures key in Store(ps) && Store(ps)[key] == ps[i].value.1
  {
    var init := ps[..|ps| - 1];
    if i < |ps| - 1 {
      forall j | i < j < |init| ensures !HasKey(init[j], key) {
        assert init[j] == ps[j];
      }
      StoreLastWins(init, i, key);
      assert !HasKey(ps[|ps| - 1], key);
    }
  }

  lemma {:induction false} StoreSkipsNone(before: seq<Option<(string, string)>>, after: seq<Option<(string, string)>>)
    ensures Store(before + [None] + after) == Store(before + after)
    decreases |after|
  {
    var s, t := before + [None] + after, before + after;
    if after == [] {
      assert s[..|s| - 1] == t;
    } else {
      var init := after[..|after| - 1];
      assert s[..|s| - 1] == before + [None] + init;
      assert t[..|t| - 1] == before + init;
      assert s[|s| - 1] == t[|t| - 1];
      StoreSkipsNone(before, init);
    }
  }

  lemma {:induction false} StoreValues(ps: seq<Option<(string, string)>>, key: string)
    requires key in Store(ps)
    ensures exists i :: 0 <= i < |ps| && ps[i] == Some((key, Store(ps)[key]))
  {
    var init := ps[..|ps| - 1];
    if !HasKey(ps[|ps| - 1], key) {
      StoreValues(init, key);
      var i :| 0 <= i < |init| && init[i] == Some((key, Store(init)[key]));
      assert ps[i] == init[i];
    }
  }

  /** A key is in the dictionary exactly when some line defines it. */
  lemma CollectDomain(lines: seq<string>, key: string)
    ensures key in Collect(lines) <==> exists i :: 0 <= i < |lines| && Defines(lines[i], key)
  {
    var ps := Pairs(lines);
    StoreDomain(ps, key);
    if key in Collect(lines) {
      var i :| 0 <= i < |ps| && HasKey(ps[i], key);
      assert Defines(lines[i], key);
    }
    if i :| 0 <= i < |lines| && Defines(lines[i], key) {
      assert HasKey(ps[i], key);
    }
  }

  /** The value stored for a key is the one from the last line defining it. */
  lemma CollectLastWins(lines: seq<string>, i: nat, key: string)
    requires i < |lines| && Defines(lines[i], key)
    requires forall j :: i < j < |lines| ==> !Defines(lines[j], key)
    ensures key in Collect(lines) && Collect(lines)[key] == LinePair(lines[i]).value.1
  {
    var ps := Pairs(lines);
    forall j | i < j < |ps| ensures !HasKey(ps[j], key) {
      assert !Defines(lines[j], key);
    }
    StoreLastWins(ps, i, key);
  }

  lemma PairsAppend(a: seq<string>, b: seq<string>)
    ensures Pairs(a + b) == Pairs(a) + Pairs(b)
  {
    var s := a + b;
    forall i | 0 <= i < |s| ensures Pairs(s)[i] == (Pairs(a) + Pairs(b))[i] {
      if i < |a| { assert s[i] == a[i]; } else { assert s[i] == b[i - |a|]; }
    }
  }

  /** A line without a pair (no '=', an empty key piece or an empty value
      piece) contributes nothing, wherever it stands. */
  lemma MalformedLineIgnored(before: seq<string>, line: string, after: seq<string>)
    requires LinePair(line).None?
    ensures Collect(before + [line] + after) == Collect(before + after)
  {
    PairsAppend(before, [line]);
    PairsAppend(before + [line], after);
    PairsAppend(before, after);
    assert Pairs([line]) == [None];
    StoreSkipsNone(Pairs(before), Pairs(after));
  }

  /** A last line without a pair leaves the dictionary as the lines before
      it made it. */
  lemma MalformedLastLine(before: seq<string>, line: string)
    requires LinePair(line).None?
    ensures Collect(before + [line]) == Collect(before)
  {
    PairsAppend(before, [line]);
    var ps := Pairs(before + [line]);
    assert ps[..|ps| - 1] == Pairs(before);
  }

  /** Every value in the dictionary is already trimmed. */
  lemma CollectValuesTrimmed(lines: seq<string>, key: string)
    requires key in Collect(lines)
    ensures Trim(Collect(lines)[key]) == Collect(lines)[key]
  {
    var ps := Pairs(lines);
    StoreValues(ps, key);
    var i :| 0 <= i < |ps| && ps[i] == Some((key, Store(ps)[key]));
    var pieces := Split(lines[i], '=');
    assert LinePair(lines[i]) == Some((Trim(pieces[0]), Trim(pieces[1])));
    TrimIdempotent(pieces[1]);
  }

  /** The loop of `applyPreferences` that fills `prefs` line by line. */
  method ParsePreferences(text: string) returns (prefs: map<string, string>)
    ensures prefs == Collect(Lines(text))
  {
    var lines := Split(Trim(text), '\n');
    ghost var ps := Pairs(lines);
    prefs := map[];
    var i := 0;
    while i < |lines|
      invariant i <= |lines|
      invariant prefs == Store(ps[..i])
    {
      assert ps[..i + 1][..i] == ps[..i];
      var pair := LinePair(lines[i]);
      if pair.Some? {
        prefs := prefs[pair.value.0 := pair.value.1];
      }
      i := i + 1;
    }
    assert ps[..|lines|] == ps;
  }

  /** `prefs.KEY` is truthy: the key is present with a non-empty value. */
  predicate Has(prefs: map<string, string>, key: string) {
    key in prefs && prefs[key] != ""
  }

  /** `Number` is applied to the START and END values; the model reads them
      only when they are decimal numerals. */
  predicate TimesNumeric(prefs: map<string, string>) {
    && (Has(prefs, "START") ==> IsDigits(prefs["START"]))
    && (Has(prefs, "END") ==> IsDigits(prefs["END"]))
  }

  /** The assignments at the end of `applyPreferences`: each of the five keys
      present with a non-empty value sets its field (START and END through
      `formatTime`), every other field keeps its value. */
  function ApplyPreferences(f: Fields, prefs: map<string, string>): (g: Fields)
    requires TimesNumeric(prefs)
    ensures g.wifiSSID == f.wifiSSID && g.wifiPassword == f.wifiPassword
    ensures (forall key :: key in FieldKeys ==> !Has(prefs, key)) ==> g == f
    ensures g.busStop == if Has(prefs, "BUSSTOP") then prefs["BUSSTOP"] else f.busStop
    ensures g.serviceNo == if Has(prefs, "SERVICE") then prefs["SERVICE"] else f.serviceNo
    ensures g.leadTime == if Has(prefs, "LEADTIME") then prefs["LEADTIME"] else f.leadTime
    ensures g.startTime == if Has(prefs, "START") then FormatTime(DecimalValue(prefs["START"])) else f.startTime
    ensures g.endTime == if Has(prefs, "END") then FormatTime(DecimalValue(prefs["END"])) else f.endTime
  {
    f.(
      busStop := if Has(prefs, "BUSSTOP") then prefs["BUSSTOP"] else f.busStop,
      serviceNo := if Has(prefs, "SERVICE") then prefs["SERVICE"] else f.serviceNo,
      startTime := if Has(prefs, "START") then FormatTime(DecimalValue(prefs["START"])) else f.startTime,
      endTime := if Has(prefs, "END") then FormatTime(DecimalValue(prefs["END"])) else f.endTime,
      leadTime := if Has(prefs, "LEADTIME") then prefs["LEADTIME"] else f.leadTime)
  }

  /** The time fields set from the dictionary read back through `parseTime`
      as the minute counts the device sent. */
  lemma AppliedTimesParse(f: Fields, prefs: map<string, string>)
    requires TimesNumeric(prefs)
    ensures var g := ApplyPreferences(f, prefs);
      Has(prefs, "START") ==> IsTimeText(g.startTime) && ParseTime(g.startTime) == DecimalValue(prefs["START"])
    ensures var g := ApplyPreferences(f, prefs);
      Has(prefs, "END") ==> IsTimeText(g.endTime) && ParseTime(g.endTime) == DecimalValue(prefs["END"])
  {
    if Has(prefs, "START") {
      RoundTrip(DecimalValue(prefs["START"]));
    }
    if Has(prefs, "END") {
      RoundTrip(DecimalValue(prefs["END"]));
    }
  }

  /** Keys other than the five (WIFI_SSID and WIFI_PASSWORD among them) have
      no effect on the form. */
  lemma ApplyIgnoresOtherKeys(f: Fields, prefs: map<string, string>, key: string, value: string)
    requires TimesNumeric(prefs) && key !in FieldKeys
    ensures TimesNumeric(prefs[key := value])
    ensures ApplyPreferences(f, prefs[key := value]) == ApplyPreferences(f, prefs)
  {
    assert forall k :: k in FieldKeys ==> (Has(prefs[key := value], k) <==> Has(prefs, k));
  }

  /** Applying the same dictionary twice leaves the form as applying it once. */
  lemma ApplyIdempotent(f: Fields, prefs: map<string, string>)
    requires TimesNumeric(prefs)
    ensures ApplyPreferences(ApplyPreferences(f, prefs), prefs) == ApplyPreferences(f, prefs)
  {
  }

  /** The report text has numeric START and END values wherever they count. */
  predicate ReportNumeric(text: string) {
    TimesNumeric(Collect(Lines(text)))
  }

  /** `applyPreferences(prefText)` as a whole: the form after the report. */
  function ApplyReport(f: Fields, text: string): Fields
    requires ReportNumeric(text)
  {
    ApplyPreferences(f, Collect(Lines(text)))
  }
}

=== FILE: serial.dfy ===
/** The read side of the serial connection (`readSerial` in app.js): every
    decoded chunk is appended to a buffer, and as soon as the buffer holds the
    text "LEADTIME=" anywhere, the whole buffer is applied as a preference
    report and emptied. */
module Serial {
  import opened Text
  import opened Preferences

  /** The substring whose presence makes the buffer count as a full report. */
  const Sentinel: string := "LEADTIME="

  /** One connection's `serialBuffer` together with the form it fills. */
  class Session {
    var buffer: string
    var fields: Fields

    /** Between chunks the buffer never holds the sentinel: a buffer that
        does is applied and emptied by the same step that completed it. */
    ghost predicate Valid()
      reads this
    {
      !Contains(buffer, Sentinel)
    }

    /** A fresh connection: an empty buffer and the form as it stands. */
    constructor (form: Fields)
      ensures Valid()
      ensures buffer == [] && fields == form
    {
      buffer := [];
      fields := form;
    }

    /** The body of the read loop for one chunk. An empty chunk is skipped. */
    method Feed(chunk: string)
      requires Valid()
      requires Contains(buffer + chunk, Sentinel) ==> ReportNumeric(buffer + chunk)
      modifies this
      ensures Valid()
      ensures var text := old(buffer) + chunk;
        if Contains(text, Sentinel) then
          buffer == [] && fields == ApplyReport(old(fields), text)
        else
          buffer == text && fields == old(fields)
    {
      if chunk != [] {
        buffer := buffer + chunk;
        if Contains(buffer, Sentinel) {
          var prefs := ParsePreferences(buffer);
          fields := ApplyPreferences(fields, prefs);
          buffer := [];
        }
      } else {
        assert buffer + chunk == buffer;
      }
    }
  }

  /** "LEADTIME=" on its own is a line with an empty value piece. */
  lemma SentinelLineHasNoPair()
    ensures LinePair(Sentinel).None?
  {
    assert Sentinel == "LEADTIME" + ['='] + [];
    FirstIndexAfter("LEADTIME", '=', []);
    LinePairShape(Sentinel);
  }

  /** The report lines that come before the sentinel line: all lines of the
      trimmed buffer but the last. */
  function EarlierLines(before: string): seq<string> {
    var ls := Lines(before + "\n" + Sentinel);
    ls[..|ls| - 1]
  }

  lemma SplitBeforeSentinel(before: string)
    ensures Split(before + ['\n'] + Sentinel, '\n') == Split(before, '\n') + [Sentinel]
  {
    assert forall k :: 0 <= k < |Sentinel| ==> Sentinel[k] != '\n';
    SplitLast(before, '\n', Sentinel);
  }

  /** Trimming a buffer that ends in the sentinel line removes only
      whitespace in front, and never reaches past the line feed before the
      sentinel. */
  lemma TrimmedCutOff(before: string) returns (front: nat)
    ensures front <= |before| + 1
    ensures Trim(before + "\n" + Sentinel) == (before + "\n" + Sentinel)[front..]
    ensures before != [] && !IsSpace(before[0]) ==> front == 0
  {
    var text := before + "\n" + Sentinel;
    TrimShape(text);
    var back: nat;
    front, back :| SpaceAround(text, front, back) && Trim(text) == text[front..|text| - back];
    assert !IsSpace(text[|text| - 1]);
    assert !IsSpace(text[|before| + 1]);
    assert before != [] ==> text[0] == before[0];
  }

  /** The trimmed buffer splits into some lines followed by the sentinel. */
  lemma SplitCutOff(before: string, front: nat) returns (earlier: seq<string>)
    requires front <= |before| + 1
    ensures Split((before + "\n" + Sentinel)[front..], '\n') == earlier + [Sentinel]
    ensures front == 0 ==> earlier == Split(before, '\n')
  {
    var text := before + "\n" + Sentinel;
    if front == |before| + 1 {
      assert text[front..] == Sentinel;
      SplitWithout(Sentinel, '\n');
      earlier := [];
    } else {
      var rest := before[front..];
      assert text[front..] == rest + ['\n'] + Sentinel;
      SplitBeforeSentinel(rest);
      earlier := Split(rest, '\n');
      assert front == 0 ==> rest == before;
    }
  }

  /** Whatever whitespace the buffer starts with, the sentinel line is the
      last line of the report. When the buffer does not start with
      whitespace, the earlier lines are its own lines. */
  lemma LinesEndingInSentinel(before: string)
    ensures Lines(before + "\n" + Sentinel) == EarlierLines(before) + [Sentinel]
    ensures before != [] && !IsSpace(before[0]) ==> EarlierLines(before) == Split(before, '\n')
  {
    var front := TrimmedCutOff(before);
    var earlier := SplitCutOff(before, front);
    var ls := Lines(before + "\n" + Sentinel);
    assert ls == earlier + [Sentinel];
    assert ls[..|ls| - 1] == earlier;
  }

  /** The sentinel on the last line is found by `includes`. */
  lemma SentinelFound(before: string)
    ensures Contains(before + "\n" + Sentinel, Sentinel)
  {
    assert OccursAt(before + "\n" + Sentinel, Sentinel, |before| + 1);
  }

  /** The cut-off sentinel line adds nothing to the dictionary. */
  lemma SentinelLineDropped(before: string)
    ensures Collect(Lines(before + "\n" + Sentinel)) == Collect(EarlierLines(before))
  {
    LinesEndingInSentinel(before);
    SentinelLineHasNoPair();
    MalformedLastLine(EarlierLines(before), Sentinel);
  }

  /** A chunk that ends right after "LEADTIME=" triggers the report before the
      lead time itself has arrived: the cut-off last line has no value, so
      the report is applied as if that line were absent and the lead-time
      field keeps whatever the earlier lines gave it. */
  lemma SentinelCutOff(f: Fields, before: string)
    requires ReportNumeric(before + "\n" + Sentinel)
    ensures Contains(before + "\n" + Sentinel, Sentinel)
    ensures Collect(Lines(before + "\n" + Sentinel)) == Collect(EarlierLines(before))
    ensures ApplyReport(f, before + "\n" + Sentinel) == ApplyPreferences(f, Collect(EarlierLines(before)))
  {
    SentinelFound(before);
    SentinelLineDropped(before);
  }

  /** After such a cut-off the lead-time field keeps its old value unless an
      earlier line defined LEADTIME itself (for example as `LEADTIME =5`,
      which does not contain the trigger text). */
  lemma CutOffKeepsLeadTime(f: Fields, before: string)
    requires ReportNumeric(before + "\n" + Sentinel)
    requires forall i :: 0 <= i < |EarlierLines(before)| ==> !Defines(EarlierLines(before)[i], "LEADTIME")
    ensures ApplyReport(f, before + "\n" + Sentinel).leadTime == f.leadTime
  {
    SentinelCutOff(f, before);
    CollectDomain(EarlierLines(before), "LEADTIME");
  }

  /** The cut-off does not lose a lead time defined on an earlier line: the
      last such line still sets the field when its value is non-empty. */
  lemma CutOffEarlierLeadTime(f: Fields, before: string, i: nat)
    requires ReportNumeric(before + "\n" + Sentinel)
    requires i < |EarlierLines(before)| && Defines(EarlierLines(before)[i], "LEADTIME")
    requires forall j :: i < j < |EarlierLines(before)| ==> !Defines(EarlierLines(before)[j], "LEADTIME")
    requires LinePair(EarlierLines(before)[i]).value.1 != []
    ensures ApplyReport(f, before + "\n" + Sentinel).leadTime == LinePair(EarlierLines(before)[i]).value.1
  {
    SentinelCutOff(f, before);
    CollectLastWins(EarlierLines(before), i, "LEADTIME");
  }
}

=== FILE: submit.dfy ===
/** The submit handler (app.js): the form is checked for its five required
    fields, then seven `SET_...` commands are sent, each written to the serial
    link followed by a line feed (`sendCommand`). */
module Submit {
  import opened Wrappers
  import opened Text
  import opened Clock
  import opened Preferences

  /** The command names in the order the handler sends them. */
  const CommandNames: seq<string> :=
    ["SET_BUSSTOP", "SET_SERVICE", "SET_START", "SET_END", "SET_LEADTIME", "SET_WIFI_SSID", "SET_WIFI_PASSWORD"]

  /** `${name}=${argument}`. */
  function Command(name: string, argument: string): string {
    name + "=" + argument
  }

  /** What a receiver reads as the argument of a command line: everything
      after its first '='. */
  function Argument(command: string): string {
    var i := FirstIndex(command, '=');
    if i < |command| then command[i + 1..] else []
  }

  /** The name of a command line: everything before its first '='. */
  function Name(command: string): string {
    command[..FirstIndex(command, '=')]
  }

  /** A command built from a name without '=' reads back as that name and
      that argument, whatever the argument holds (an '=' included). */
  lemma CommandReadBack(name: string, argument: string)
    requires '=' !in name
    ensures '=' in Command(name, argument)
    ensures Name(Command(name, argument)) == name
    ensures Argument(Command(name, argument)) == argument
  {
    FirstIndexAfter(name, '=', argument);
    var command := Command(name, argument);
    assert command[|name|] == '=';
    assert command[..|name|] == name;
    assert command[|name| + 1..] == argument;
  }

  /** A field counts as empty when nothing is left of it after `trim`. */
  predicate Blank(value: string) {
    Trim(value) == []
  }

  /** One of the five required fields is blank: the handler alerts and
      returns (the WiFi fields are not checked). */
  predicate Incomplete(f: Fields) {
    Blank(f.busStop) || Blank(f.serviceNo) || Blank(f.startTime) || Blank(f.endTime) || Blank(f.leadTime)
  }

  /** Once the handler gets past its check, the time fields hold text
      `parseTime` reads as two numerals. A form that fails the check is never
      passed to `parseTime`, so nothing is asked of it. */
  predicate TimesParseable(f: Fields) {
    !Incomplete(f) ==> IsTimeText(Trim(f.startTime)) && IsTimeText(Trim(f.endTime))
  }

  /** The arguments of the seven commands, in sending order: the trimmed
      fields, with start and end converted by `parseTime` and written back as
      decimal numerals by the template string. */
  function Arguments(f: Fields): (arguments: seq<string>)
    requires !Incomplete(f) && TimesParseable(f)
    ensures |arguments| == |CommandNames|
    ensures arguments[0] == Trim(f.busStop) && arguments[1] == Trim(f.serviceNo)
    ensures arguments[4] == Trim(f.leadTime) && arguments[5] == Trim(f.wifiSSID)
    ensures arguments[6] == Trim(f.wifiPassword)
    ensures IsDigits(arguments[2]) && DecimalValue(arguments[2]) == ParseTime(Trim(f.startTime))
    ensures IsDigits(arguments[3]) && DecimalValue(arguments[3]) == ParseTime(Trim(f.endTime))
  {
    [ Trim(f.busStop),
      Trim(f.serviceNo),
      Decimal(ParseTime(Trim(f.startTime))),
      Decimal(ParseTime(Trim(f.endTime))),
      Trim(f.leadTime),
      Trim(f.wifiSSID),
      Trim(f.wifiPassword) ]
  }

  /** One command per name, in order, carrying the matching argument. */
  function Commands(arguments: seq<string>): (commands: seq<string>)
    requires |arguments| == |CommandNames|
    ensures |commands| == |CommandNames|
    ensures forall i :: 0 <= i < |CommandNames| ==>
      '=' in commands[i] && Name(commands[i]) == CommandNames[i] && Argument(commands[i]) == arguments[i]
  {
    var commands := seq(|CommandNames|, i requires 0 <= i < |CommandNames| => Command(CommandNames[i], arguments[i]));
    assert forall i :: 0 <= i < |CommandNames| ==>
      '=' in commands[i] && Name(commands[i]) == CommandNames[i] && Argument(commands[i]) == arguments[i] by {
      forall i | 0 <= i < |CommandNames|
        ensures '=' in commands[i] && Name(commands[i]) == CommandNames[i] && Argument(commands[i]) == arguments[i]
      {
        assert '=' !in CommandNames[i];
        CommandReadBack(CommandNames[i], arguments[i]);
      }
    }
    commands
  }

  /** The submit handler: `None` when the alert fires and nothing is sent,
      otherwise the seven commands in sending order. The WiFi fields are not
      required. */
  function SubmitCommands(f: Fields): (r: Option<seq<string>>)
    requires TimesParseable(f)
    ensures r.None? <==>
      Blank(f.busStop) || Blank(f.serviceNo) || Blank(f.startTime) || Blank(f.endTime) || Blank(f.leadTime)
    ensures r.Some? ==> |r.value| == |CommandNames|
    ensures r.Some? ==> forall i :: 0 <= i < |CommandNames| ==>
      '=' in r.value[i] && Name(r.value[i]) == CommandNames[i]
  {
    if Incomplete(f) then
      None
    else
      Some(Commands(Arguments(f)))
  }

  /** What the device reads back from a submit: every command carries its
      trimmed field, and start and end arrive as the minute counts `parseTime`
      gives for the two time fields. */
  lemma SubmitArguments(f: Fields)
    requires !Incomplete(f) && TimesParseable(f)
    ensures var commands := SubmitCommands(f).value;
      && Argument(commands[0]) == Trim(f.busStop)
      && Argument(commands[1]) == Trim(f.serviceNo)
      && Argument(commands[4]) == Trim(f.leadTime)
      && Argument(commands[5]) == Trim(f.wifiSSID)
      && Argument(commands[6]) == Trim(f.wifiPassword)
    ensures var commands := SubmitCommands(f).value;
      && IsDigits(Argument(commands[2])) && DecimalValue(Argument(commands[2])) == ParseTime(Trim(f.startTime))
      && IsDigits(Argument(commands[3])) && DecimalValue(Argument(commands[3])) == ParseTime(Trim(f.endTime))
  {
    CommandArguments(f);
  }

  /** The commands of a submit carry the arguments, index by index. */
  lemma CommandArguments(f: Fields)
    requires !Incomplete(f) && TimesParseable(f)
    ensures forall i :: 0 <= i < |CommandNames| ==> Argument(SubmitCommands(f).value[i]) == Arguments(f)[i]
  {
    assert SubmitCommands(f).value == Commands(Arguments(f));
  }

  /** `command + '\n'`, as `sendCommand` writes it. */
  function Frame(command: string): string {
    command + "\n"
  }

  /** Everything a run of `sendCommand` calls writes, in order. */
  function Wire(commands: seq<string>): string {
    if commands == [] then [] else Frame(commands[0]) + Wire(commands[1..])
  }

  lemma {:induction false} WireIsJoin(commands: seq<string>)
    ensures Wire(commands) == Join(commands + [[]], '\n')
  {
    if commands != [] {
      WireIsJoin(commands[1..]);
      assert (commands + [[]])[1..] == commands[1..] + [[]];
    }
  }

  /** The receiving side recovers the commands by splitting the written text
      at line feeds, as long as no command holds a line feed of its own; the
      last piece is the empty text after the final line feed. */
  lemma WireSplits(commands: seq<string>)
    requires forall i :: 0 <= i < |commands| ==> '\n' !in commands[i]
    ensures Split(Wire(commands), '\n') == commands + [[]]
  {
    WireIsJoin(commands);
    SplitJoin(commands + [[]], '\n');
  }

  /** A command line is its name, the '=' and its argument, so a line feed in
      it lies in one of the two. */
  lemma NoLineFeed(command: string)
    requires '\n' !in Name(command) && '\n' !in Argument(command)
    ensures '\n' !in command
  {
    var i := FirstIndex(command, '=');
    if i < |command| {
      assert command == Name(command) + [command[i]] + Argument(command);
    } else {
      assert command == Name(command);
    }
  }

  /** No argument holds a line feed when no field does: trimming brings in
      no character, and the time arguments are numerals. */
  lemma ArgumentsWithoutLineFeed(f: Fields)
    requires !Incomplete(f) && TimesParseable(f)
    requires '\n' !in f.busStop && '\n' !in f.serviceNo && '\n' !in f.leadTime
    requires '\n' !in f.wifiSSID && '\n' !in f.wifiPassword
    ensures forall i :: 0 <= i < |CommandNames| ==> '\n' !in Arguments(f)[i]
  {
    var arguments := Arguments(f);
    forall i | 0 <= i < |CommandNames| ensures '\n' !in arguments[i] {
      if i == 0 {
        TrimKeepsOut(f.busStop, '\n');
      } else if i == 1 {
        TrimKeepsOut(f.serviceNo, '\n');
      } else if i == 2 || i == 3 {
        assert !IsDigit('\n');
      } else if i == 4 {
        TrimKeepsOut(f.leadTime, '\n');
      } else if i == 5 {
        TrimKeepsOut(f.wifiSSID, '\n');
      } else {
        TrimKeepsOut(f.wifiPassword, '\n');
      }
    }
  }

  /** Commands built from arguments without a line feed hold none. */
  lemma CommandsWithoutLineFeed(arguments: seq<string>)
    requires |arguments| == |CommandNames|
    requires forall i :: 0 <= i < |arguments| ==> '\n' !in arguments[i]
    ensures forall i :: 0 <= i < |CommandNames| ==> '\n' !in Commands(arguments)[i]
  {
    var commands := Commands(arguments);
    forall i | 0 <= i < |CommandNames| ensures '\n' !in commands[i] {
      assert '\n' !in CommandNames[i];
      NoLineFeed(commands[i]);
    }
  }

  /** When no field holds a line feed, the seven commands of a submit arrive
      as exactly seven lines. */
  lemma SubmitFraming(f: Fields)
    requires !Incomplete(f) && TimesParseable(f)
    requires '\n' !in f.busStop && '\n' !in f.serviceNo && '\n' !in f.leadTime
    requires '\n' !in f.wifiSSID && '\n' !in f.wifiPassword
    ensures Split(Wire(SubmitCommands(f).value), '\n') == SubmitCommands(f).value + [[]]
  {
    var arguments := Arguments(f);
    ArgumentsWithoutLineFeed(f);
    CommandsWithoutLineFeed(arguments);
    WireSplits(Commands(arguments));
  }

  /** Submitting right after the five fields were set from a dictionary of
      trimmed values sends those values back. */
  lemma ApplyThenSubmit(f: Fields, prefs: map<string, string>)
    requires TimesNumeric(prefs)
    requires forall key :: key in FieldKeys ==> Has(prefs, key) && Trim(prefs[key]) == prefs[key]
    ensures TimesParseable(ApplyPreferences(f, prefs))
    ensures SubmitCommands(ApplyPreferences(f, prefs)).Some?
    ensures var commands := SubmitCommands(ApplyPreferences(f, prefs)).value;
      && Argument(commands[0]) == prefs["BUSSTOP"]
      && Argument(commands[1]) == prefs["SERVICE"]
      && DecimalValue(Argument(commands[2])) == DecimalValue(prefs["START"])
      && DecimalValue(Argument(commands[3])) == DecimalValue(prefs["END"])
      && Argument(commands[4]) == prefs["LEADTIME"]
  {
    assert "BUSSTOP" in FieldKeys && "SERVICE" in FieldKeys && "LEADTIME" in FieldKeys;
    assert "START" in FieldKeys && "END" in FieldKeys;
    var g := ApplyPreferences(f, prefs);
    AppliedTimesParse(f, prefs);
    FormattedIsTrimmed(DecimalValue(prefs["START"]));
    FormattedIsTrimmed(DecimalValue(prefs["END"]));
    assert !Blank(g.startTime) && !Blank(g.endTime);
    assert !Blank(g.busStop) && !Blank(g.serviceNo) && !Blank(g.leadTime);
    SubmitArguments(g);
  }

  /** Submitting right after a report that set all five fields sends the
      device's own values back: the three text values as they were received
      (trimmed), START and END as the same minute counts. */
  lemma ReportThenSubmit(f: Fields, text: string)
    requires ReportNumeric(text)
    requires forall key :: key in FieldKeys ==> Has(Collect(Lines(text)), key)
    ensures TimesParseable(ApplyReport(f, text))
    ensures SubmitCommands(ApplyReport(f, text)).Some?
    ensures var prefs, commands := Collect(Lines(text)), SubmitCommands(ApplyReport(f, text)).value;
      && Argument(commands[0]) == prefs["BUSSTOP"]
      && Argument(commands[1]) == prefs["SERVICE"]
      && DecimalValue(Argument(commands[2])) == DecimalValue(prefs["START"])
      && DecimalValue(Argument(commands[3])) == DecimalValue(prefs["END"])
      && Argument(commands[4]) == prefs["LEADTIME"]
  {
    var lines := Lines(text);
    var prefs := Collect(lines);
    forall key | key in FieldKeys ensures Has(prefs, key) && Trim(prefs[key]) == prefs[key] {
      CollectValuesTrimmed(lines, key);
    }
    ApplyThenSubmit(f, prefs);
  }
}

=== FILE: text.dfy ===
/** The JavaScript string primitives the configurator relies on, written over
    `seq<char>`: `trim`, `split` on one character, `includes`, `padStart`,
    `String(n)` for a natural number and `Number(s)` for a string of decimal
    digits. */
module Text {

  /** The characters `String.prototype.trim` removes, restricted to ASCII:
      space, tab, line feed, carriage return, vertical tab and form feed. */
  predicate IsSpace(c: char) {
    c == ' ' || c == '\t' || c == '\n' || c == '\r' || c == '\U{000B}' || c == '\U{000C}'
  }

  /** `s.trim()`: whitespace removed from both ends, so that neither end of
      the result is whitespace. */
  function Trim(s: string): (r: string)
    ensures |r| <= |s|
    ensures r != [] ==> !IsSpace(r[0]) && !IsSpace(r[|r| - 1])
    decreases |s|
  {
    if s != [] && IsSpace(s[0]) then Trim(s[1..])
    else if s != [] && IsSpace(s[|s| - 1]) then Trim(s[..|s| - 1])
    else s
  }

  /** The first `front` and the last `back` characters of `s` are whitespace. */
  predicate SpaceAround(s: string, front: nat, back: nat) {
    && front + back <= |s|
    && (forall k :: 0 <= k < front ==> IsSpace(s[k]))
    && (forall k :: |s| - back <= k < |s| ==> IsSpace(s[k]))
  }

  /** `trim` removes whitespace at the two ends and nothing else: its result is
      `s` with some leading and some trailing whitespace cut off. Together
      with the contract of `Trim` (no whitespace left at either end) this
      fixes the result. */
  lemma {:induction false} TrimShape(s: string)
    ensures exists front: nat, back: nat ::
      SpaceAround(s, front, back) && Trim(s) == s[front..|s| - back]
    decreases |s|
  {
    if s != [] && IsSpace(s[0]) {
      TrimShape(s[1..]);
      var front: nat, back: nat :| SpaceAround(s[1..], front, back) && Trim(s[1..]) == s[1..][front..|s| - 1 - back];
      SpaceBefore(s, front, back);
    } else if s != [] && IsSpace(s[|s| - 1]) {
      TrimShape(s[..|s| - 1]);
      var front: nat, back: nat :| SpaceAround(s[..|s| - 1], front, back) && Trim(s[..|s| - 1]) == s[..|s| - 1][front..|s| - 1 - back];
      SpaceAfter(s, front, back);
    } else {
      assert SpaceAround(s, 0, 0) && s[0..|s| - 0] == s;
    }
  }

  /** One more whitespace character in front. */
  lemma SpaceBefore(s: string, front: nat, back: nat)
    requires s != [] && IsSpace(s[0]) && SpaceAround(s[1..], front, back)
    ensures SpaceAround(s, front + 1, back)
    ensures s[front + 1..|s| - back] == s[1..][front..|s| - 1 - back]
  {
    var t := s[1..];
    forall k | 1 <= k < |s| ensures s[k] == t[k - 1] {
    }
  }

  /** One more whitespace character at the back. */
  lemma SpaceAfter(s: string, front: nat, back: nat)
    requires s != [] && IsSpace(s[|s| - 1]) && SpaceAround(s[..|s| - 1], front, back)
    ensures SpaceAround(s, front, back + 1)
    ensures s[front..|s| - (back + 1)] == s[..|s| - 1][front..|s| - 1 - back]
  {
    var t := s[..|s| - 1];
    forall k | 0 <= k < |s| - 1 ensures s[k] == t[k] {
    }
  }

  /** Trimming leaves nothing exactly when the text is all whitespace. */
  lemma {:induction false} TrimEmpty(s: string)
    ensures Trim(s) == [] <==> forall k :: 0 <= k < |s| ==> IsSpace(s[k])
    decreases |s|
  {
    if s != [] && IsSpace(s[0]) {
      TrimEmpty(s[1..]);
      assert forall k :: 1 <= k < |s| ==> s[k] == s[1..][k - 1];
    } else if s != [] && IsSpace(s[|s| - 1]) {
      TrimEmpty(s[..|s| - 1]);
      assert forall k :: 0 <= k < |s| - 1 ==> s[k] == s[..|s| - 1][k];
    }
  }

  /** A string whose ends are not whitespace is left as it is by `trim`. */
  lemma TrimUntouched(s: string)
    requires s != [] ==> !IsSpace(s[0]) && !IsSpace(s[|s| - 1])
    ensures Trim(s) == s
  {
  }

  /** Trimming twice is trimming once. */
  lemma TrimIdempotent(s: string)
    ensures Trim(Trim(s)) == Trim(s)
  {
    TrimUntouched(Trim(s));
  }

  /** Trimming removes characters and never brings in a new one. */
  lemma {:induction false} TrimKeepsOut(s: string, c: char)
    requires c !in s
    ensures c !in Trim(s)
    decreases |s|
  {
    if s != [] && IsSpace(s[0]) {
      assert forall k :: 0 <= k < |s| - 1 ==> s[1..][k] == s[k + 1];
      TrimKeepsOut(s[1..], c);
    } else if s != [] && IsSpace(s[|s| - 1]) {
      assert forall k :: 0 <= k < |s| - 1 ==> s[..|s| - 1][k] == s[k];
      TrimKeepsOut(s[..|s| - 1], c);
    }
  }

  /** A text is what comes before index `k`, the character at `k` and what
      comes after it. */
  lemma Around(s: string, k: nat)
    requires k < |s|
    ensures s == s[..k] + [s[k]] + s[k + 1..]
  {
  }

  /** The index of the first `c` in `s`, or `|s|` when there is none. */
  function FirstIndex(s: string, c: char): (i: nat)
    ensures i <= |s|
    ensures forall k :: 0 <= k < i ==> s[k] != c
    ensures i < |s| ==> s[i] == c
  {
    if s == [] || s[0] == c then 0 else 1 + FirstIndex(s[1..], c)
  }

  /** `s.split(c)`: the pieces between the occurrences of `c`, in order. There
      is always at least one piece, and no piece contains `c`. */
  function Split(s: string, c: char): (parts: seq<string>)
    ensures |parts| >= 1
    ensures forall k :: 0 <= k < |parts| ==> c !in parts[k]
    decreases |s|
  {
    var i := FirstIndex(s, c);
    if i == |s| then [s] else [s[..i]] + Split(s[i + 1..], c)
  }

  /** `parts.join(c)`. */
  function Join(parts: seq<string>, c: char): string
    requires |parts| >= 1
  {
    if |parts| == 1 then parts[0] else parts[0] + [c] + Join(parts[1..], c)
  }

  /** Joining the pieces of a split gives back the string. */
  lemma {:induction false} JoinSplit(s: string, c: char)
    ensures Join(Split(s, c), c) == s
    decreases |s|
  {
    var i := FirstIndex(s, c);
    if i < |s| {
      JoinSplit(s[i + 1..], c);
      Around(s, i);
    }
  }

  /** In `a + [c] + b` with no `c` in `a`, the first `c` is the one after `a`. */
  lemma FirstIndexAfter(a: string, c: char, b: string)
    requires c !in a
    ensures FirstIndex(a + [c] + b, c) == |a|
  {
    var s := a + [c] + b;
    assert s[|a|] == c;
    assert forall k :: 0 <= k < |a| ==> s[k] == a[k];
  }

  /** Splitting pieces that do not contain the separator, once joined, gives
      back the pieces. */
  lemma {:induction false} SplitJoin(parts: seq<string>, c: char)
    requires |parts| >= 1
    requires forall k :: 0 <= k < |parts| ==> c !in parts[k]
    ensures Split(Join(parts, c), c) == parts
  {
    if |parts| == 1 {
      SplitWithout(parts[0], c);
    } else {
      SplitAtFirst(parts[0], c, Join(parts[1..], c));
      SplitJoin(parts[1..], c);
      assert parts == [parts[0]] + parts[1..];
    }
  }

  /** A string without the separator is a single piece. */
  lemma SplitWithout(s: string, c: char)
    requires c !in s
    ensures Split(s, c) == [s]
  {
    assert FirstIndex(s, c) == |s|;
  }

  /** The first `c` is the index before which there is none and at which
      there is one (or the end). */
  lemma FirstIndexUnique(s: string, c: char, i: nat)
    requires i <= |s| && (i < |s| ==> s[i] == c)
    requires forall k :: 0 <= k < i ==> s[k] != c
    ensures FirstIndex(s, c) == i
  {
  }

  /** A separator found in `a` is still the first one once `[c] + b` is
      appended, so the first piece is the same and the rest carries on. */
  lemma SplitPrefix(a: string, c: char, tail: string)
    requires FirstIndex(a, c) < |a|
    ensures var i := FirstIndex(a, c);
      Split(a + tail, c) == [a[..i]] + Split(a[i + 1..] + tail, c)
  {
    var i := FirstIndex(a, c);
    SliceAppend(a, tail, i);
    FirstIndexUnique(a + tail, c, i);
    SplitUnfold(a + tail, c);
  }

  /** A text with a separator splits into the piece before its first one and
      the split of the rest. */
  lemma SplitUnfold(s: string, c: char)
    requires FirstIndex(s, c) < |s|
    ensures Split(s, c) == [s[..FirstIndex(s, c)]] + Split(s[FirstIndex(s, c) + 1..], c)
  {
  }

  /** Slicing around an index of `a` in `a + tail`. */
  lemma SliceAppend(a: string, tail: string, i: nat)
    requires i < |a|
    ensures (a + tail)[..i] == a[..i] && (a + tail)[i] == a[i]
    ensures (a + tail)[i + 1..] == a[i + 1..] + tail
    ensures forall k :: 0 <= k < i ==> (a + tail)[k] == a[k]
  {
    assert (a + tail)[i + 1..] == a[i + 1..] + tail;
  }

  /** With no separator in `a`, the first piece of `a + [c] + b` is `a`. */
  lemma SplitAtFirst(a: string, c: char, b: string)
    requires c !in a
    ensures Split(a + [c] + b, c) == [a] + Split(b, c)
  {
    var s := a + [c] + b;
    FirstIndexAfter(a, c, b);
    assert s[..|a|] == a && s[|a| + 1..] == b;
  }

  /** Splitting at a separator splits the two sides independently. */
  lemma {:induction false} SplitAppend(a: string, c: char, b: string)
    ensures Split(a + [c] + b, c) == Split(a, c) + Split(b, c)
    decreases |a|
  {
    var i := FirstIndex(a, c);
    if i == |a| {
      SplitAtFirst(a, c, b);
      SplitWithout(a, c);
    } else {
      var rest := a[i + 1..];
      assert a + [c] + b == a + ([c] + b);
      assert rest + ([c] + b) == rest + [c] + b;
      SplitPrefix(a, c, [c] + b);
      SplitAppend(rest, c, b);
      assert [a[..i]] + (Split(rest, c) + Split(b, c)) == [a[..i]] + Split(rest, c) + Split(b, c);
    }
  }

  /** A last part without the separator is the last piece. */
  lemma SplitLast(a: string, c: char, b: string)
    requires c !in b
    ensures Split(a + [c] + b, c) == Split(a, c) + [b]
  {
    SplitAppend(a, c, b);
    SplitWithout(b, c);
  }

  /** `pattern` occurs in `s` starting at index `i`. */
  predicate OccursAt(s: string, pattern: string, i: nat) {
    i + |pattern| <= |s| && s[i..i + |pattern|] == pattern
  }

  /** `s.includes(pattern)`: true exactly when `pattern` occurs somewhere in `s`. */
  function Contains(s: string, pattern: string): (b: bool)
    ensures b <==> exists i: nat :: OccursAt(s, pattern, i)
    decreases |s|
  {
    if |s| < |pattern| then
      false
    else if s[..|pattern|] == pattern then
      assert OccursAt(s, pattern, 0);
      true
    else
      var b := Contains(s[1..], pattern);
      assert b ==> exists i: nat :: OccursAt(s, pattern, i) by {
        if b {
          var i: nat :| OccursAt(s[1..], pattern, i);
          assert s[i + 1..i + 1 + |pattern|] == s[1..][i..i + |pattern|];
          assert OccursAt(s, pattern, i + 1);
        }
      }
      assert (exists i: nat :: OccursAt(s, pattern, i)) ==> b by {
        if i: nat :| OccursAt(s, pattern, i) {
          assert i != 0;
          assert s[1..][i - 1..i - 1 + |pattern|] == s[i..i + |pattern|];
          assert OccursAt(s[1..], pattern, i - 1);
        }
      }
      b
  }

  predicate IsDigit(c: char) {
    '0' <= c <= '9'
  }

  predicate IsDigits(s: string) {
    forall k :: 0 <= k < |s| ==> IsDigit(s[k])
  }

  function DigitValue(c: char): (d: nat)
    requires IsDigit(c)
    ensures d < 10
  {
    (c as int - '0' as int) as nat
  }

  function DigitChar(d: nat): (c: char)
    requires d < 10
    ensures IsDigit(c) && DigitValue(c) == d
  {
    ('0' as int + d) as char
  }

  /** `Number(s)` for a string of decimal digits; like JavaScript, the empty
      string reads as 0. */
  function DecimalValue(s: string): nat
    requires IsDigits(s)
  {
    if s == [] then 0 else DecimalValue(s[..|s| - 1]) * 10 + DigitValue(s[|s| - 1])
  }

  /** `String(n)`: the canonical decimal numeral of `n`, which reads back as
      `n` and has no leading zero unless it is "0". */
  function Decimal(n: nat): (s: string)
    ensures |s| >= 1 && IsDigits(s)
    ensures DecimalValue(s) == n
    ensures s[0] == '0' ==> s == "0"
  {
    if n < 10 then
      [DigitChar(n)]
    else
      var s := Decimal(n / 10) + [DigitChar(n % 10)];
      assert s[..|s| - 1] == Decimal(n / 10);
      s
  }

  /** A leading zero does not change the value of a numeral. */
  lemma {:induction false} LeadingZero(s: string)
    requires IsDigits(s)
    ensures IsDigits(['0'] + s) && DecimalValue(['0'] + s) == DecimalValue(s)
    decreases |s|
  {
    var z := ['0'] + s;
    if s == [] {
      assert z[..0] == [];
    } else {
      assert z[..|z| - 1] == ['0'] + s[..|s| - 1];
      LeadingZero(s[..|s| - 1]);
    }
  }

  /** `s.padStart(width, fill)` for a one-character fill: `fill` repeated in
      front of `s` until the text is `width` long; a text already that long
      is left as it is. */
  function PadStart(s: string, width: nat, fill: char): (r: string)
    ensures |r| == if |s| < width then width else |s|
    decreases width
  {
    if |s| >= width then s else [fill] + PadStart(s, width - 1, fill)
  }

  /** The padded text is the fill character repeated as often as needed,
      followed by the original text. */
  lemma {:induction false} PadStartShape(s: string, width: nat, fill: char)
    ensures var n := if |s| < width then width - |s| else 0;
      PadStart(s, width, fill) == seq(n, _ => fill) + s
    decreases width
  {
    if |s| < width {
      var n := width - |s|;
      PadStartShape(s, width - 1, fill);
      assert seq(n, _ => fill) == [fill] + seq(n - 1, _ => fill);
    }
  }

  /** Padding a numeral with zeros keeps it a numeral of the same value. */
  lemma {:induction false} ZeroPadValue(s: string, width: nat)
    requires IsDigits(s)
    ensures IsDigits(PadStart(s, width, '0'))
    ensures DecimalValue(PadStart(s, width, '0')) == DecimalValue(s)
    decreases width
  {
    if |s| < width {
      var p := PadStart(s, width - 1, '0');
      ZeroPadValue(s, width - 1);
      LeadingZero(p);
      assert PadStart(s, width, '0') == ['0'] + p;
    }
  }
}

=== FILE: wrappers.dfy ===
/** The optional-value datatype used for "absent" answers (a missing
    `key=value` pair, a submit that sends nothing). */
module Wrappers {

  datatype Option<+T> = None | Some(value: T)

}
